=== FILE: README.md ===
# Social network routers in Dafny

This project models the server-side routers of a small social-network app.
There are three routers:

- the **friend router** handles friend requests, friendships and user search;
- the **post router** handles posts;
- the **user router** handles a user's own profile row.

Each procedure receives the database. A procedure that reads the session
also receives the id of the signed-in caller. The public ones (`hello`,
`getAll`, `getById`) take no caller, and neither does `getLatest`, which is
protected but does not read the session. A procedure checks its input and
preconditions, then makes at most two writes.

The database is one object, `Schema.Database`. It has four tables, `users`,
`posts`, `friendRequests` and `friendships`. Each table is a sequence of rows
in natural order. Serial ids come from one counter per table. `createdAt` is
an abstract clock that every insert reads and advances. `Database.Valid` is
the invariant that every mutation preserves:

- ids are distinct and were issued by the counter;
- every row is older than the clock;
- at most one request is pending per ordered (sender, receiver) pair;
- every friendship stores its pair smaller id first.

A procedure that throws becomes a `Fail`/`Err` result and leaves the database
unchanged.

The modules:

- `Js` models JavaScript strings as sequences of UTF-16 code units. `Js.Less`
  is JavaScript's `<` on strings: lexicographic by code unit, with a proper
  prefix smaller. It is proved irreflexive, asymmetric, transitive and total.
- `Query` gives the meaning of the ORM calls on one table:
  - `findFirst` is `FindFirst`;
  - `findMany({ where })` is `Filter`;
  - `orderBy: desc(...)` is `SortDesc`, a stable insertion sort;
  - `update().set().where()` is `UpdateWhere`;
  - `delete().where()` is `DeleteWhere`;
  - a relation join or `.map` is `MapSeq`.
- `Schema` holds the row types, the errors, the database and its invariant.
- `FriendRouter`, `PostRouter` and `UserRouter` hold the procedures.
  - Reads are functions.
  - Mutations are methods on the database, with `modifies db`.
  - The contract of each router method states the whole new state. The
    two scenario methods, `FriendRouter.MutualRequests` and
    `FriendRouter.DuplicateFriendshipScenario`, state only the rows they
    exhibit.

## Model

| member | source | states |
|---|---|---|
| Js.LessIrreflexive | src/server/api/routers/friend.ts:80-81 | No string is below itself under JavaScript `<` |
| Js.LessAsymmetric | src/server/api/routers/friend.ts:80-81 | If `a < b` then not `b < a` |
| Js.LessTransitive | src/server/api/routers/friend.ts:80-81 | `a < b` and `b < c` give `a < c` |
| Js.LessTrichotomy | src/server/api/routers/friend.ts:80-81 | Two strings are equal or ordered one way or the other, so the comparison that orders a friendship's pair always picks one order |
| FriendRouter.SendRequest | src/server/api/routers/friend.ts:8-51 | Fails with "already friends" if a friendship joins the two users in either column order. Otherwise fails with "already sent" if the caller has a pending request to that receiver; accepted, declined or reverse-direction requests do not block. Otherwise appends exactly one pending request from the caller, with the next id and the current time. A failure changes nothing; other tables are unchanged; the invariant is kept |
| FriendRouter.AppendKeepsRequestsValid | src/server/api/routers/friend.ts:33-50 | Inserting a pending request only when none is pending for that ordered pair keeps at most one pending request per pair |
| FriendRouter.NewRequestSeenAsSent | src/server/api/routers/friend.ts:46-50 | After a successful request between two distinct users, the sender's status toward the receiver is `request_sent` with the id of the new request |
| FriendRouter.FindPendingFor | src/server/api/routers/friend.ts:61-67 | Finds a request only if one has that id, is addressed to the caller and is pending; the request found has those three properties |
| FriendRouter.AcceptRequest | src/server/api/routers/friend.ts:54-87 | Succeeds exactly when a request with that id is addressed to the caller and pending; otherwise fails with "not found" and changes nothing. On success, marks every request with that id accepted and appends one friendship for the sender and caller, smaller id first, with the next id and the current time. The invariant is kept |
| FriendRouter.InsertFriendship | src/server/api/routers/friend.ts:79-86 | Appends the friendship of the two users in canonical order, stamps it, advances the counter and the clock, and changes nothing else |
| FriendRouter.CanonicalPair | src/server/api/routers/friend.ts:80-81 | The stored pair holds the same two ids, in one order or the other, and the second id is never smaller than the first under JavaScript `<` |
| FriendRouter.CanonicalPairSymmetric | src/server/api/routers/friend.ts:80-81 | Either side of a request gives the same stored pair |
| FriendRouter.LastFriendshipMakesFriends | src/server/api/routers/friend.ts:83-86 | Once the newest friendship joins two distinct users, each one's status toward the other is `friends` |
| FriendRouter.MarkKeepsAtMostOnePending | src/server/api/routers/friend.ts:74-77 | Setting a non-pending status on any rows keeps at most one pending request per pair |
| FriendRouter.DeclineRequest | src/server/api/routers/friend.ts:90-106 | Marks declined exactly the requests with that id that are addressed to the caller and pending. When there is none, nothing changes and no error is raised. Other tables are unchanged |
| FriendRouter.RemoveFriend | src/server/api/routers/friend.ts:109-129 | Deletes exactly the friendships joining the two users in either order, and succeeds when there is none. Afterwards they are not friends, and the status between them is not `friends`. The invariant is kept, and so is the absence of duplicate pairs |
| FriendRouter.RemoveFriendIdempotent | src/server/api/routers/friend.ts:115-128 | Removing the same friend a second time changes nothing |
| FriendRouter.GetPendingRequests | src/server/api/routers/friend.ts:132-151 | Lists exactly the caller's received pending requests, each with its sender's summary, newest first (a permutation of the filtered rows) |
| FriendRouter.GetSentRequests | src/server/api/routers/friend.ts:154-173 | Lists exactly the caller's sent pending requests, each with its receiver's summary, newest first (a permutation of the filtered rows) |
| FriendRouter.PendingListing | src/server/api/routers/friend.ts:135-150 | The shared shape of the two request listings: a newest-first permutation of the matching rows, each joined with a user |
| FriendRouter.GetFriends | src/server/api/routers/friend.ts:176-212 | Gives one entry per friendship involving the caller: the other end's summary and when the friendship began. A permutation of those entries, ordered by friendship `createdAt`, newest first |
| FriendRouter.OtherEndIsTheFriend | src/server/api/routers/friend.ts:204-206 | The end picked by `user1Id === userId ? user2 : user1` is the caller's partner in that friendship |
| FriendRouter.GetFriendshipStatus | src/server/api/routers/friend.ts:215-270 | `self` iff the ids are equal. Then `friends` iff a friendship joins them in either order. Then `request_sent` iff the caller has a pending request to the target. Then `request_received` iff the target has a pending request to the caller. Else `none`. An id returned is that of the first matching row in table order |
| FriendRouter.FriendsSymmetric | src/server/api/routers/friend.ts:225-241 | Two users see each other as friends from both sides or from neither |
| FriendRouter.SentSeenAsReceived | src/server/api/routers/friend.ts:243-267 | A request one side sees as sent, the other sees as received, unless the other has a pending request back |
| FriendRouter.SearchUsers | src/server/api/routers/friend.ts:273-293 | Rejects the empty query. Otherwise returns at most 10 cards. None of them is the caller's, and each belongs to a user whose name or email equals the query exactly. Every card comes from the first ten matches read, and every one of those that is not the caller appears |
| FriendRouter.AcceptRequestOnce | src/server/api/routers/friend.ts:54-87 | As `acceptRequest`, but no friendship is inserted when the two are already friends, and then the friendship counter and the clock stay as they were. Each unordered pair is stored at most once, and afterwards the two are friends |
| FriendRouter.AppendKeepsNoDuplicatePairs | src/server/api/routers/friend.ts:83-86 | Inserting a friendship for users who are not yet friends keeps every unordered pair stored once |
| FriendRouter.DuplicateFriendshipScenario | src/server/api/routers/friend.ts:54-87 | Two users each send the other a request, then each accepts the one received. This leaves two friendship rows for the same pair |
| FriendRouter.MutualRequests | src/server/api/routers/friend.ts:8-51 | Starting from an empty database, two users each send the other a request; both requests are stored as pending |
| PostRouter.Hello | src/server/api/routers/post.ts:12-18 | The greeting is `"Hello "` followed by the text |
| PostRouter.HelloInjective | src/server/api/routers/post.ts:16 | Different texts give different greetings |
| PostRouter.Create | src/server/api/routers/post.ts:20-27 | Rejects an empty text and changes nothing. Otherwise appends one post by the caller with the next id and the current time, and changes nothing else |
| PostRouter.CreatedPostIsLatest | src/server/api/routers/post.ts:23-34 | In a consistent database, the post just created is the one `getLatest` returns |
| PostRouter.GetLatest | src/server/api/routers/post.ts:29-35 | Null iff there are no posts; otherwise a post of the table whose `createdAt` is maximal |
| PostRouter.NewestIsLatest | src/server/api/routers/post.ts:29-35 | A post stamped later than every other is the one returned |
| PostRouter.GetAll | src/server/api/routers/post.ts:37-52 | Every post, each with its author's summary, as a permutation of the table, newest first |
| PostRouter.GetAllListsEveryPost | src/server/api/routers/post.ts:38-51 | Every post of the table appears in the listing |
| PostRouter.Update | src/server/api/routers/post.ts:54-81 | Rejects a text outside 1..280 code units. A missing post and another user's post give the same error and change nothing. Otherwise only the text of the post with that id changes |
| PostRouter.RenameChangesOnlyText | src/server/api/routers/post.ts:77-80 | Renaming keeps every post's id, author and time. It changes the text of the posts with that id and no other |
| PostRouter.RenameReadBack | src/server/api/routers/post.ts:77-80 | Reading the post back by its id after the rename gives the old post with the new text |
| PostRouter.Delete | src/server/api/routers/post.ts:83-102 | A missing post and another user's post give the same error and change nothing. Otherwise exactly the caller's post with that id is removed, and the others stay in order |
| PostRouter.DeletedIndex | src/server/api/routers/post.ts:87-101 | With distinct ids, the delete by id of an owned post removes that one row and keeps the rest in order |
| Schema.FindUserById | src/server/api/routers/user.ts:12-33 | `getUser`, `getCurrent` and `getById` return a row with that id, or null exactly when no row has it |
| UserRouter.FindUserByIdIsTheRow | src/server/api/routers/user.ts:26-33 | With distinct ids, the lookup returns the row with that id |
| UserRouter.Update | src/server/api/routers/user.ts:35-58 | Fails with `NoValuesToSet` and changes nothing exactly when all three fields are omitted. Otherwise applies the given name, bio and location to the caller's row only; omitted fields are kept. Returns that row read back, or `undefined` (`None`) when the caller has no row; a given field, null included, replaces the column. No other row or table changes, and no onboarding flag is cleared |
| UserRouter.FinishOnboarding | src/server/api/routers/user.ts:59-89 | Rejects a name under 3 code units, an invalid email, an invalid photo URL or a bio over 160 code units, and changes nothing. Otherwise writes the input on the caller's row and sets `onboardingComplete`; an omitted optional field keeps its column. Returns exactly that row as written, or `undefined` (`None`) when the caller has no row. There is no guard against a second onboarding |
| UserRouter.OnboardIdempotent | src/server/api/routers/user.ts:71-81 | Onboarding twice with the same input leaves the row as onboarding once |
| UserRouter.UpdateProfilePhoto | src/server/api/routers/user.ts:90-99 | Rejects an invalid URL. Otherwise changes only the caller's `image` |
| UserRouter.UpdateCallerRow | src/server/api/routers/user.ts:51 | An update addressed by `id == caller` whose `set` keeps the id changes no other row and keeps ids distinct |
| UserRouter.SetsKeepOnboarding | src/server/api/routers/user.ts:79 | The profile and photo updates keep `onboardingComplete`, and onboarding sets it |
| UserRouter.UpdateKeepsOnboarding | src/server/api/routers/user.ts:44-51 | An update whose `set` never clears the flag leaves every onboarded row onboarded |

## Left out

- The schema file `src/server/db/schema.ts` is not part of this model. The
  row types are taken from the columns the routers read and write. Foreign
  keys and cascades are not modelled, so a post's author summary and a
  request's counterpart are `Option`s.
- The lookup by caller shares `Schema.FindUserById` among `getUser`,
  `getCurrent` and `getById`, since the three are the same query.
- `getSecretMessage` (post.ts:104-106) returns a constant string and is left out.
- Likes, follows and the client components are not among the routers.
- Authentication is a parameter: every protected procedure takes the
  caller's id.
- Photo upload to blob storage is not among the routers.
- The email and URL checks of the input schemas are decided outside the
  model. Their verdicts are boolean parameters of
  `UserRouter.FinishOnboarding` and `UserRouter.UpdateProfilePhoto`.
- `UserRouter.Update` assumes the ORM skips a key whose value is `undefined`
  in `.set`. This is modelled as `Patch.Omitted`, which keeps the column. It
  is an assumption about the library, not a proved fact. The same reading is
  used for the optional fields of onboarding. Likewise assumed: the ORM
  refuses a `.set` left with no key at all by throwing, which the model
  gives as the error `NoValuesToSet`.
- Request ids and post ids are JavaScript numbers (`z.number()`), which
  accepts non-integers. The model takes them as integers. What the
  database does with a fractional id (no match, or an error) is not
  modelled.
- Each procedure is one atomic step. The races between a check and the
  insert that follows it, and the two separate writes of `acceptRequest`,
  are not modelled.
- Timestamps are an abstract counter that each insert advances. In a
  database built by these procedures from the empty one, two rows of a
  table never share a `createdAt`, so ties in `orderBy` do not arise there.
  `Database.Valid` only bounds `createdAt` by the clock and does not itself
  exclude ties. `SortDesc` keeps table order on ties.
- A query without `orderBy` has no defined row order in SQL, and the source
  leaves it open. The model chooses insertion order ("table order"), and
  `UpdateWhere` keeps each updated row where it was. So the row `findFirst`
  returns in `getFriendshipStatus` and the ten rows `searchUsers` reads are
  fixed by that choice, not by the source. In `searchUsers` the
  `limit: 10` is applied before the caller is dropped, so it can return
  fewer than ten users while more matches exist, whatever the order.
- The status classifier is proved separately from the mutations:
  - `FriendRouter.SendRequest` states the appended row, and
    `FriendRouter.NewRequestSeenAsSent` proves the resulting status;
  - `FriendRouter.AcceptRequest` states the appended friendship, and
    `FriendRouter.LastFriendshipMakesFriends` proves the resulting status.
- The source does not stop a user from sending a request to themselves or
  accepting it. The model allows the same, and such a friendship stores the
  same id twice.
- The shape of returned objects (the spread in `getFriends`, the nested
  `sender`/`receiver`/`createdBy` objects) is modelled as small datatypes
  with the same fields.

## Findings

| source | as written | input that shows it | evidently intended | confidence | as-written member | corrected member |
|---|---|---|---|---|---|---|
| src/server/api/routers/friend.ts:54-87 | `acceptRequest` inserts a friendship without checking whether one already exists for the pair; `sendRequest` only blocks a pending request in the same direction | user A sends a request to B, B sends one to A, B accepts the first, A accepts the second: two friendship rows join A and B | one friendship row per unordered pair of users | not executed | FriendRouter.DuplicateFriendshipScenario | FriendRouter.AcceptRequestOnce |

=== FILE: friend.dfy ===
/**
 * The friend router: a friend request moves from pending to accepted or
 * declined; accepting one stores a friendship as a pair of user ids with the
 * smaller id first; a friendship is looked up from either side.
 */
module FriendRouter {
  import opened Wrappers
  import opened Js
  import opened Query
  import opened Schema

  // ---------------------------------------------------------------------------
  // Row conditions

  /** The friendship joins `a` and `b`, in either column order. */
  predicate Connects(f: Friendship, a: UserId, b: UserId) {
    (f.user1Id == a && f.user2Id == b) || (f.user1Id == b && f.user2Id == a)
  }

  function ConnectsPair(a: UserId, b: UserId): Friendship -> bool {
    (f: Friendship) => Connects(f, a, b)
  }

  ghost predicate AreFriends(friendships: seq<Friendship>, a: UserId, b: UserId) {
    exists i :: 0 <= i < |friendships| && Connects(friendships[i], a, b)
  }

  predicate IsPendingFromTo(q: FriendRequest, sender: UserId, receiver: UserId) {
    q.senderId == sender && q.receiverId == receiver && q.status == Pending
  }

  function PendingFromTo(sender: UserId, receiver: UserId): FriendRequest -> bool {
    (q: FriendRequest) => IsPendingFromTo(q, sender, receiver)
  }

  ghost predicate HasPending(requests: seq<FriendRequest>, sender: UserId, receiver: UserId) {
    exists i :: 0 <= i < |requests| && IsPendingFromTo(requests[i], sender, receiver)
  }

  /** The request with this id, addressed to `receiver`, still pending. */
  function PendingFor(requestId: int, receiver: UserId): FriendRequest -> bool {
    (q: FriendRequest) => q.id == requestId && q.receiverId == receiver && q.status == Pending
  }

  function RequestHasId(requestId: int): FriendRequest -> bool {
    (q: FriendRequest) => q.id == requestId
  }

  function MarkStatus(status: RequestStatus): FriendRequest -> FriendRequest {
    (q: FriendRequest) => q.(status := status)
  }

  /** The unordered pair of a friendship; two rows with the same pair store one friendship twice. */
  function PairKey(f: Friendship): set<UserId> {
    {f.user1Id, f.user2Id}
  }

  ghost predicate NoDuplicatePairs(friendships: seq<Friendship>) {
    DistinctKeys(friendships, PairKey)
  }

  // ---------------------------------------------------------------------------
  // The canonical pair

  /**
   * The `(user1Id, user2Id)` stored when `receiver` accepts a request from
   * `sender`: the same two ids, the smaller one (JavaScript `<`) first.
   */
  function CanonicalPair(sender: UserId, receiver: UserId): (r: (UserId, UserId))
    ensures (r.0 == sender && r.1 == receiver) || (r.0 == receiver && r.1 == sender)
    ensures !Less(r.1, r.0)
  {
    if Less(sender, receiver) then
      LessAsymmetric(sender, receiver);
      (sender, receiver)
    else
      (receiver, sender)
  }

  /** Either side of a request gives the same stored pair: one row per unordered pair. */
  lemma CanonicalPairSymmetric(a: UserId, b: UserId)
    ensures CanonicalPair(a, b) == CanonicalPair(b, a)
  {
    LessTrichotomy(a, b);
    if Less(a, b) {
      LessAsymmetric(a, b);
    }
  }

  // ---------------------------------------------------------------------------
  // Reads

  /** The value of `getFriendshipStatus`. */
  datatype FriendshipStatus =
    | Self                              // "self"
    | Friends(friendshipId: int)        // "friends"
    | RequestSent(requestId: int)       // "request_sent"
    | RequestReceived(requestId: int)   // "request_received"
    | NoRelation                        // "none"

  /**
   * `getFriendshipStatus`: the first of self, friends, request sent, request
   * received that applies, else none; an id returned is that of the first
   * matching row in table order.
   */
  function GetFriendshipStatus(
    friendships: seq<Friendship>, requests: seq<FriendRequest>, caller: UserId, target: UserId): (r: FriendshipStatus)
    ensures r.Self? <==> caller == target
    ensures r.Friends? <==> caller != target && AreFriends(friendships, caller, target)
    ensures r.RequestSent? <==>
      caller != target && !AreFriends(friendships, caller, target) && HasPending(requests, caller, target)
    ensures r.RequestReceived? <==>
      caller != target && !AreFriends(friendships, caller, target) && !HasPending(requests, caller, target) &&
      HasPending(requests, target, caller)
    ensures r.NoRelation? <==>
      caller != target && !AreFriends(friendships, caller, target) && !HasPending(requests, caller, target) &&
      !HasPending(requests, target, caller)
    ensures r.Friends? ==>
      exists i :: 0 <= i < |friendships| && friendships[i].id == r.friendshipId && Connects(friendships[i], caller, target) &&
        forall j :: 0 <= j < i ==> !Connects(friendships[j], caller, target)
    ensures r.RequestSent? ==>
      exists i :: 0 <= i < |requests| && requests[i].id == r.requestId && IsPendingFromTo(requests[i], caller, target) &&
        forall j :: 0 <= j < i ==> !IsPendingFromTo(requests[j], caller, target)
    ensures r.RequestReceived? ==>
      exists i :: 0 <= i < |requests| && requests[i].id == r.requestId && IsPendingFromTo(requests[i], target, caller) &&
        forall j :: 0 <= j < i ==> !IsPendingFromTo(requests[j], target, caller)
  {
    if caller == target then Self
    else match FindFirst(friendships, ConnectsPair(caller, target))
      case Some(f) => Friends(f.id)
      case None =>
        match FindFirst(requests, PendingFromTo(caller, target))
        case Some(q) => RequestSent(q.id)
        case None =>
          match FindFirst(requests, PendingFromTo(target, caller))
          case Some(q) => RequestReceived(q.id)
          case None => NoRelation
  }

  /** Two users are friends from both sides or from neither. */
  lemma FriendsSymmetric(friendships: seq<Friendship>, requests: seq<FriendRequest>, a: UserId, b: UserId)
    ensures GetFriendshipStatus(friendships, requests, a, b).Friends? <==>
            GetFriendshipStatus(friendships, requests, b, a).Friends?
  {
    if AreFriends(friendships, a, b) {
      var i :| 0 <= i < |friendships| && Connects(friendships[i], a, b);
      assert Connects(friendships[i], b, a);
    }
    if AreFriends(friendships, b, a) {
      var i :| 0 <= i < |friendships| && Connects(friendships[i], b, a);
      assert Connects(friendships[i], a, b);
    }
  }

  /** A request one side sees as sent, the other side sees as received, unless it has sent one back. */
  lemma SentSeenAsReceived(friendships: seq<Friendship>, requests: seq<FriendRequest>, a: UserId, b: UserId)
    requires GetFriendshipStatus(friendships, requests, a, b).RequestSent?
    requires !HasPending(requests, b, a)
    ensures GetFriendshipStatus(friendships, requests, b, a).RequestReceived?
  {
    FriendsSymmetric(friendships, requests, a, b);
  }

  function Involves(user: UserId): Friendship -> bool {
    (f: Friendship) => f.user1Id == user || f.user2Id == user
  }

  /** The end of a friendship that is not `user` (`user2` when `user1Id === user`, else `user1`). */
  function OtherEnd(f: Friendship, user: UserId): UserId {
    if f.user1Id == user then f.user2Id else f.user1Id
  }

  lemma OtherEndIsTheFriend(f: Friendship, user: UserId)
    requires Involves(user)(f)
    ensures Connects(f, user, OtherEnd(f, user))
  {
  }

  /** An entry of `getFriends`: the friend's `{ id, name, image }` and when the friendship began. */
  datatype FriendView = FriendView(friend: Option<UserSummary>, friendshipCreatedAt: nat)

  function FriendViewOf(users: seq<User>, user: UserId): Friendship -> FriendView {
    (f: Friendship) => FriendView(SummaryOf(users, OtherEnd(f, user)), f.createdAt)
  }

  function FriendshipCreatedAt(f: Friendship): int { f.createdAt }
  function FriendViewCreatedAt(v: FriendView): int { v.friendshipCreatedAt }

  /**
   * `getFriends`: one entry per friendship of the caller, giving the other
   * end, newest friendship first.
   */
  function GetFriends(friendships: seq<Friendship>, users: seq<User>, caller: UserId): (r: seq<FriendView>)
    ensures multiset(r) == multiset(MapSeq(Filter(friendships, Involves(caller)), FriendViewOf(users, caller)))
    ensures SortedDesc(r, FriendViewCreatedAt)
    ensures forall v :: v in r ==>
      exists f :: f in friendships && Involves(caller)(f) && v == FriendViewOf(users, caller)(f)
  {
    var mine := Filter(friendships, Involves(caller));
    var sorted := SortDesc(mine, FriendshipCreatedAt);
    MapSeqPermutation(sorted, mine, FriendViewOf(users, caller));
    var r := MapSeq(sorted, FriendViewOf(users, caller));
    assert forall v :: v in r ==> exists f :: f in friendships && Involves(caller)(f) && v == FriendViewOf(users, caller)(f) by {
      forall v | v in r ensures exists f :: f in friendships && Involves(caller)(f) && v == FriendViewOf(users, caller)(f) {
        var j :| 0 <= j < |sorted| && r[j] == v;
        assert sorted[j] in multiset(mine);
        assert sorted[j] in mine;
      }
    }
    r
  }

  /** An entry of the request lists: the request and the `{ id, name, image }` of the other party. */
  datatype RequestView = RequestView(request: FriendRequest, counterpart: Option<UserSummary>)

  function ReceivedPending(user: UserId): FriendRequest -> bool {
    (q: FriendRequest) => q.receiverId == user && q.status == Pending
  }

  function SentPending(user: UserId): FriendRequest -> bool {
    (q: FriendRequest) => q.senderId == user && q.status == Pending
  }

  function WithSender(users: seq<User>): FriendRequest -> RequestView {
    (q: FriendRequest) => RequestView(q, SummaryOf(users, q.senderId))
  }

  function WithReceiver(users: seq<User>): FriendRequest -> RequestView {
    (q: FriendRequest) => RequestView(q, SummaryOf(users, q.receiverId))
  }

  function RequestCreatedAt(q: FriendRequest): int { q.createdAt }
  function RequestViewCreatedAt(v: RequestView): int { v.request.createdAt }

  /**
   * The pending requests matching `p`, each joined by `view` with the user at
   * its other end, newest first.
   */
  function PendingListing(
    requests: seq<FriendRequest>, p: FriendRequest -> bool, view: FriendRequest -> RequestView): (r: seq<RequestView>)
    requires forall q :: view(q).request == q
    ensures multiset(r) == multiset(MapSeq(Filter(requests, p), view))
    ensures SortedDesc(r, RequestViewCreatedAt)
    ensures forall v :: v in r ==> v.request in requests && p(v.request) && v == view(v.request)
  {
    var matching := Filter(requests, p);
    var sorted := SortDesc(matching, RequestCreatedAt);
    MapSeqPermutation(sorted, matching, view);
    var r := MapSeq(sorted, view);
    assert forall v :: v in r ==> v.request in matching && v == view(v.request) by {
      forall v | v in r ensures v.request in matching && v == view(v.request) {
        var j :| 0 <= j < |sorted| && r[j] == v;
        assert sorted[j] in multiset(matching);
      }
    }
    r
  }

  /** `getPendingRequests`: the pending requests the caller has received, with their senders, newest first. */
  function GetPendingRequests(requests: seq<FriendRequest>, users: seq<User>, caller: UserId): (r: seq<RequestView>)
    ensures multiset(r) == multiset(MapSeq(Filter(requests, ReceivedPending(caller)), WithSender(users)))
    ensures SortedDesc(r, RequestViewCreatedAt)
    ensures forall v :: v in r ==>
      v.request in requests && v.request.receiverId == caller && v.request.status == Pending &&
      v.counterpart == SummaryOf(users, v.request.senderId)
  {
    PendingListing(requests, ReceivedPending(caller), WithSender(users))
  }

  /** `getSentRequests`: the pending requests the caller has sent, with their receivers, newest first. */
  function GetSentRequests(requests: seq<FriendRequest>, users: seq<User>, caller: UserId): (r: seq<RequestView>)
    ensures multiset(r) == multiset(MapSeq(Filter(requests, SentPending(caller)), WithReceiver(users)))
    ensures SortedDesc(r, RequestViewCreatedAt)
    ensures forall v :: v in r ==>
      v.request in requests && v.request.senderId == caller && v.request.status == Pending &&
      v.counterpart == SummaryOf(users, v.request.receiverId)
  {
    PendingListing(requests, SentPending(caller), WithReceiver(users))
  }

  /** The columns `{ id, name, image, email }` that `searchUsers` selects. */
  datatype UserCard = UserCard(id: UserId, name: Option<JsString>, image: Option<JsString>, email: Option<JsString>)

  function CardOf(u: User): UserCard {
    UserCard(u.id, u.name, u.image, u.email)
  }

  function MatchesQuery(query: JsString): User -> bool {
    (u: User) => u.name == Some(query) || u.email == Some(query)
  }

  function NotUser(user: UserId): UserCard -> bool {
    (c: UserCard) => c.id != user
  }

  /** `c` is the card of a user whose name or email is exactly `query`. */
  ghost predicate IsCardOfMatch(users: seq<User>, query: JsString, c: UserCard) {
    exists i :: 0 <= i < |users| && c == CardOf(users[i]) && (users[i].name == Some(query) || users[i].email == Some(query))
  }

  /** The number of rows a search reads (`limit: 10`). */
  const SearchLimit := 10

  /**
   * `searchUsers`: users whose name or email equals the query exactly; the
   * first ten such rows are read and the caller is then dropped from them.
   */
  function SearchUsers(users: seq<User>, caller: UserId, query: JsString): (r: Result<seq<UserCard>>)
    ensures r.Err? <==> |query| == 0
    ensures r.Err? ==> r.error == InvalidInput
    ensures r.Ok? ==> |r.value| <= SearchLimit
    ensures r.Ok? ==> forall c :: c in r.value ==>
      && c.id != caller
      && IsCardOfMatch(users, query, c)
    ensures r.Ok? ==>
      var hits := Filter(users, MatchesQuery(query));
      forall k :: 0 <= k < |hits| && k < SearchLimit && hits[k].id != caller ==> CardOf(hits[k]) in r.value
    ensures r.Ok? ==>
      var hits := Filter(users, MatchesQuery(query));
      forall c :: c in r.value ==> exists k :: 0 <= k < |hits| && k < SearchLimit && c == CardOf(hits[k])
  {
    if |query| < 1 then Err(InvalidInput)
    else
      var hits := Filter(users, MatchesQuery(query));
      var read := hits[..if |hits| < SearchLimit then |hits| else SearchLimit];
      var cards := MapSeq(read, CardOf);
      var r := Filter(cards, NotUser(caller));
      assert forall c :: c in r ==> exists k :: 0 <= k < |hits| && k < SearchLimit && c == CardOf(hits[k]) by {
        forall c | c in r ensures exists k :: 0 <= k < |hits| && k < SearchLimit && c == CardOf(hits[k]) {
          var j :| 0 <= j < |cards| && cards[j] == c;
          assert read[j] == hits[j] && j < SearchLimit && c == CardOf(hits[j]);
        }
      }
      assert forall c :: c in r ==> IsCardOfMatch(users, query, c) by {
        forall c | c in r ensures IsCardOfMatch(users, query, c) {
          var k :| 0 <= k < |hits| && k < SearchLimit && c == CardOf(hits[k]);
          assert hits[k] in hits;
          var i :| 0 <= i < |users| && users[i] == hits[k];
        }
      }
      assert forall k :: 0 <= k < |hits| && k < SearchLimit && hits[k].id != caller ==> CardOf(hits[k]) in r by {
        forall k | 0 <= k < |hits| && k < SearchLimit && hits[k].id != caller ensures CardOf(hits[k]) in r {
          assert cards[k] == CardOf(hits[k]);
        }
      }
      Ok(r)
  }

  // ---------------------------------------------------------------------------
  // Mutations

  /** Changing the status of requests to a non-pending one keeps "at most one pending per pair". */
  lemma MarkKeepsAtMostOnePending(requests: seq<FriendRequest>, p: FriendRequest -> bool, status: RequestStatus)
    requires AtMostOnePending(requests) && status != Pending
    ensures AtMostOnePending(UpdateWhere(requests, p, MarkStatus(status)))
  {
    var r := UpdateWhere(requests, p, MarkStatus(status));
    forall i, j | 0 <= i < j < |r| && r[i].status == Pending && r[j].status == Pending
      ensures r[i].senderId != r[j].senderId || r[i].receiverId != r[j].receiverId
    {
      assert r[i] == requests[i] && r[j] == requests[j];
    }
  }

  /**
   * `sendRequest`: refused when the two are already friends (either column
   * order), then when the caller already has a pending request to the same
   * receiver; otherwise one pending request is added.
   */
  method SendRequest(db: Database, caller: UserId, receiverId: UserId) returns (r: Outcome)
    requires db.Valid()
    modifies db
    ensures db.Valid()
    ensures r == if AreFriends(old(db.friendships), caller, receiverId) then Fail(AlreadyFriends)
                 else if HasPending(old(db.friendRequests), caller, receiverId) then Fail(RequestAlreadySent)
                 else Pass
    ensures db.users == old(db.users) && db.posts == old(db.posts) && db.friendships == old(db.friendships)
    ensures db.nextPostId == old(db.nextPostId) && db.nextFriendshipId == old(db.nextFriendshipId)
    ensures r.Fail? ==>
      db.friendRequests == old(db.friendRequests) && db.nextRequestId == old(db.nextRequestId) && db.clock == old(db.clock)
    ensures r.Pass? ==>
      && db.friendRequests == old(db.friendRequests) +
           [FriendRequest(old(db.nextRequestId), caller, receiverId, Pending, old(db.clock))]
      && db.nextRequestId == old(db.nextRequestId) + 1
      && db.clock == old(db.clock) + 1
  {
    var friendship := FindFirst(db.friendships, ConnectsPair(caller, receiverId));
    if friendship.Some? {
      return Fail(AlreadyFriends);
    }
    var existing := FindFirst(db.friendRequests, PendingFromTo(caller, receiverId));
    if existing.Some? {
      return Fail(RequestAlreadySent);
    }
    var request := FriendRequest(db.nextRequestId, caller, receiverId, Pending, db.clock);
    AppendKeepsRequestsValid(db.friendRequests, db.nextRequestId, db.clock, request);
    PostsValidLater(db.posts, db.nextPostId, db.clock);
    FriendshipsValidLater(db.friendships, db.nextFriendshipId, db.clock);
    db.friendRequests, db.nextRequestId, db.clock := db.friendRequests + [request], db.nextRequestId + 1, db.clock + 1;
    r := Pass;
  }

  /** A pending request from `a` to `b` is appended to a table that has none. */
  lemma AppendKeepsRequestsValid(requests: seq<FriendRequest>, nextId: int, clock: nat, q: FriendRequest)
    requires RequestsValid(requests, nextId, clock)
    requires q.id == nextId && q.createdAt == clock
    requires q.status == Pending ==> !HasPending(requests, q.senderId, q.receiverId)
    ensures RequestsValid(requests + [q], nextId + 1, clock + 1)
  {
    var rs := requests + [q];
    forall i, j | 0 <= i < j < |rs| ensures rs[i].id != rs[j].id {
      assert rs[i] == requests[i];
    }
    forall i, j | 0 <= i < j < |rs| && rs[i].status == Pending && rs[j].status == Pending
      ensures rs[i].senderId != rs[j].senderId || rs[i].receiverId != rs[j].receiverId
    {
      assert rs[i] == requests[i];
      if j < |requests| {
        assert rs[j] == requests[j];
      } else {
        assert !IsPendingFromTo(requests[i], q.senderId, q.receiverId);
      }
    }
  }

  /**
   * After a request from `a` to `b` is added where the two were neither
   * friends nor had one pending, `a` sees that request as sent.
   */
  lemma NewRequestSeenAsSent(
    friendships: seq<Friendship>, requests: seq<FriendRequest>, q: FriendRequest)
    requires q.senderId != q.receiverId && q.status == Pending
    requires !AreFriends(friendships, q.senderId, q.receiverId)
    requires !HasPending(requests, q.senderId, q.receiverId)
    ensures GetFriendshipStatus(friendships, requests + [q], q.senderId, q.receiverId) == RequestSent(q.id)
  {
    var rs := requests + [q];
    assert rs[|requests|] == q;
    var s := GetFriendshipStatus(friendships, rs, q.senderId, q.receiverId);
    var i :| 0 <= i < |rs| && rs[i].id == s.requestId && IsPendingFromTo(rs[i], q.senderId, q.receiverId);
    assert i == |requests|;
  }

  /** The request `acceptRequest` acts on: that id, addressed to `receiver`, still pending. */
  function FindPendingFor(requests: seq<FriendRequest>, requestId: int, receiver: UserId): (r: Option<FriendRequest>)
    ensures r.Some? <==> exists i :: 0 <= i < |requests| && PendingFor(requestId, receiver)(requests[i])
    ensures r.Some? ==> r.value in requests && r.value.id == requestId && r.value.receiverId == receiver &&
                        r.value.status == Pending
  {
    FindFirst(requests, PendingFor(requestId, receiver))
  }

  /**
   * `acceptRequest`: refused unless a request with that id is addressed to
   * the caller and pending; then it is marked accepted and the friendship
   * between its sender and the caller is inserted, smaller id first.
   */
  method AcceptRequest(db: Database, caller: UserId, requestId: int) returns (r: Outcome)
    requires db.Valid()
    modifies db
    ensures db.Valid()
    ensures r.Pass? <==> FindPendingFor(old(db.friendRequests), requestId, caller).Some?
    ensures r.Fail? ==> r.error == RequestNotFound
    ensures db.users == old(db.users) && db.posts == old(db.posts)
    ensures db.nextPostId == old(db.nextPostId) && db.nextRequestId == old(db.nextRequestId)
    ensures r.Fail? ==>
      && db.friendRequests == old(db.friendRequests) && db.friendships == old(db.friendships)
      && db.nextFriendshipId == old(db.nextFriendshipId) && db.clock == old(db.clock)
    ensures r.Pass? ==>
      var sender := FindPendingFor(old(db.friendRequests), requestId, caller).value.senderId;
      var pair := CanonicalPair(sender, caller);
      && db.friendRequests == UpdateWhere(old(db.friendRequests), RequestHasId(requestId), MarkStatus(Accepted))
      && db.friendships == old(db.friendships) + [Friendship(old(db.nextFriendshipId), pair.0, pair.1, old(db.clock))]
      && db.nextFriendshipId == old(db.nextFriendshipId) + 1
      && db.clock == old(db.clock) + 1
    ensures r.Pass? ==>
      var sender := FindPendingFor(old(db.friendRequests), requestId, caller).value.senderId;
      var f := db.friendships[|db.friendships| - 1];
      Connects(f, sender, caller) && Canonical(f)
  {
    var request := FindPendingFor(db.friendRequests, requestId, caller);
    if request.None? {
      return Fail(RequestNotFound);
    }
    MarkKeepsRequestsValid(db.friendRequests, RequestHasId(requestId), Accepted, db.nextRequestId, db.clock);
    db.friendRequests := UpdateWhere(db.friendRequests, RequestHasId(requestId), MarkStatus(Accepted));
    InsertFriendship(db, request.value.senderId, caller);
    r := Pass;
  }

  /**
   * The insert into friendships that ends `acceptRequest`: the pair of `a`
   * and `b`, smaller id first, with the next id and the current time.
   */
  method InsertFriendship(db: Database, a: UserId, b: UserId)
    requires db.Valid()
    modifies db
    ensures db.Valid()
    ensures var pair := CanonicalPair(a, b);
      db.friendships == old(db.friendships) + [Friendship(old(db.nextFriendshipId), pair.0, pair.1, old(db.clock))]
    ensures db.nextFriendshipId == old(db.nextFriendshipId) + 1 && db.clock == old(db.clock) + 1
    ensures db.users == old(db.users) && db.posts == old(db.posts) && db.friendRequests == old(db.friendRequests)
    ensures db.nextPostId == old(db.nextPostId) && db.nextRequestId == old(db.nextRequestId)
  {
    var pair := CanonicalPair(a, b);
    var friendship := Friendship(db.nextFriendshipId, pair.0, pair.1, db.clock);
    AppendKeepsFriendshipsValid(db.friendships, db.nextFriendshipId, db.clock, friendship);
    PostsValidLater(db.posts, db.nextPostId, db.clock);
    RequestsValidLater(db.friendRequests, db.nextRequestId, db.clock);
    db.friendships, db.nextFriendshipId, db.clock := db.friendships + [friendship], db.nextFriendshipId + 1, db.clock + 1;
  }

  /**
   * `acceptRequest` with the check that the source leaves out: when the two
   * users are already friends, the request is still marked accepted but no
   * second friendship row is inserted, so each unordered pair is stored at
   * most once.
   */
  method AcceptRequestOnce(db: Database, caller: UserId, requestId: int) returns (r: Outcome)
    requires db.Valid() && NoDuplicatePairs(db.friendships)
    modifies db
    ensures db.Valid() && NoDuplicatePairs(db.friendships)
    ensures r.Pass? <==> FindPendingFor(old(db.friendRequests), requestId, caller).Some?
    ensures r.Fail? ==> r.error == RequestNotFound
    ensures db.users == old(db.users) && db.posts == old(db.posts)
    ensures db.nextPostId == old(db.nextPostId) && db.nextRequestId == old(db.nextRequestId)
    ensures r.Fail? ==>
      && db.friendRequests == old(db.friendRequests) && db.friendships == old(db.friendships)
      && db.nextFriendshipId == old(db.nextFriendshipId) && db.clock == old(db.clock)
    ensures r.Pass? ==>
      var sender := FindPendingFor(old(db.friendRequests), requestId, caller).value.senderId;
      var pair := CanonicalPair(sender, caller);
      && db.friendRequests == UpdateWhere(old(db.friendRequests), RequestHasId(requestId), MarkStatus(Accepted))
      && AreFriends(db.friendships, sender, caller)
      && (AreFriends(old(db.friendships), sender, caller) ==> db.friendships == old(db.friendships))
      && (!AreFriends(old(db.friendships), sender, caller) ==>
            db.friendships == old(db.friendships) + [Friendship(old(db.nextFriendshipId), pair.0, pair.1, old(db.clock))])
      && db.nextFriendshipId == old(db.nextFriendshipId) + (if AreFriends(old(db.friendships), sender, caller) then 0 else 1)
      && db.clock == old(db.clock) + (if AreFriends(old(db.friendships), sender, caller) then 0 else 1)
  {
    var request := FindPendingFor(db.friendRequests, requestId, caller);
    if request.None? {
      return Fail(RequestNotFound);
    }
    var sender := request.value.senderId;
    MarkKeepsRequestsValid(db.friendRequests, RequestHasId(requestId), Accepted, db.nextRequestId, db.clock);
    db.friendRequests := UpdateWhere(db.friendRequests, RequestHasId(requestId), MarkStatus(Accepted));
    var existing := FindFirst(db.friendships, ConnectsPair(sender, caller));
    if existing.None? {
      ghost var before := db.friendships;
      InsertFriendship(db, sender, caller);
      assert db.friendships[|before|] == db.friendships[|db.friendships| - 1];
      AppendKeepsNoDuplicatePairs(before, db.friendships[|before|], sender, caller);
    }
    r := Pass;
  }

  /** Two rows with the same unordered pair join the same two users. */
  lemma SamePairConnects(f: Friendship, a: UserId, b: UserId)
    requires PairKey(f) == {a, b}
    ensures Connects(f, a, b)
  {
    assert a in PairKey(f) && b in PairKey(f);
    assert f.user1Id in {a, b} && f.user2Id in {a, b};
  }

  /** Adding a row for a pair that is not yet friends keeps every pair stored once. */
  lemma AppendKeepsNoDuplicatePairs(friendships: seq<Friendship>, f: Friendship, a: UserId, b: UserId)
    requires NoDuplicatePairs(friendships) && Connects(f, a, b) && !AreFriends(friendships, a, b)
    ensures NoDuplicatePairs(friendships + [f])
  {
    var fs := friendships + [f];
    forall i, j | 0 <= i < j < |fs| ensures PairKey(fs[i]) != PairKey(fs[j]) {
      assert fs[i] == friendships[i];
      if j == |friendships| {
        if PairKey(fs[i]) == PairKey(f) {
          assert PairKey(f) == {a, b};
          SamePairConnects(fs[i], a, b);
          assert false;
        }
      } else {
        assert fs[j] == friendships[j];
      }
    }
  }

  /** Users `[65]` and `[66]` have each sent the other a friend request. */
  method MutualRequests() returns (db: Database)
    ensures fresh(db) && db.Valid()
    ensures db.friendships == []
    ensures db.friendRequests == [FriendRequest(1, [65], [66], Pending, 0), FriendRequest(2, [66], [65], Pending, 1)]
  {
    var alice: UserId := [65];
    var bob: UserId := [66];
    db := new Database([]);
    var sent := SendRequest(db, alice, bob);
    assert sent == Pass;
    assert !HasPending(db.friendRequests, bob, alice) by {
      assert !IsPendingFromTo(db.friendRequests[0], bob, alice);
    }
    var sentBack := SendRequest(db, bob, alice);
    assert sentBack == Pass;
  }

  /**
   * Two users who each send the other a request and then each accept the
   * request they received end up with two friendship rows for one pair.
   */
  method DuplicateFriendshipScenario() returns (db: Database)
    ensures |db.friendships| == 2
    ensures Connects(db.friendships[0], [65], [66]) && Connects(db.friendships[1], [65], [66])
    ensures !NoDuplicatePairs(db.friendships)
  {
    var alice: UserId := [65];
    var bob: UserId := [66];
    db := MutualRequests();
    assert FindPendingFor(db.friendRequests, 1, bob).Some? by {
      assert PendingFor(1, bob)(db.friendRequests[0]);
    }
    var accepted := AcceptRequest(db, bob, 1);
    assert accepted == Pass && db.friendRequests[1] == FriendRequest(2, bob, alice, Pending, 1);
    assert FindPendingFor(db.friendRequests, 2, alice).Some? by {
      assert PendingFor(2, alice)(db.friendRequests[1]);
    }
    var acceptedBack := AcceptRequest(db, alice, 2);
    assert acceptedBack == Pass;
    assert PairKey(db.friendships[0]) == PairKey(db.friendships[1]);
  }

  lemma MarkKeepsRequestsValid(
    requests: seq<FriendRequest>, p: FriendRequest -> bool, status: RequestStatus, nextId: int, clock: nat)
    requires RequestsValid(requests, nextId, clock) && status != Pending
    ensures RequestsValid(UpdateWhere(requests, p, MarkStatus(status)), nextId, clock)
  {
    UpdateKeepsDistinct(requests, p, MarkStatus(status), RequestKey);
    MarkKeepsAtMostOnePending(requests, p, status);
  }

  lemma AppendKeepsFriendshipsValid(friendships: seq<Friendship>, nextId: int, clock: nat, f: Friendship)
    requires FriendshipsValid(friendships, nextId, clock)
    requires f.id == nextId && f.createdAt == clock && Canonical(f)
    ensures FriendshipsValid(friendships + [f], nextId + 1, clock + 1)
  {
    var fs := friendships + [f];
    forall i, j | 0 <= i < j < |fs| ensures fs[i].id != fs[j].id {
      if j == |friendships| {
        assert fs[i] == friendships[i];
      } else {
        assert fs[i] == friendships[i] && fs[j] == friendships[j];
      }
    }
  }

  /** Once the newest friendship row joins `a` and `b`, each sees the other as a friend. */
  lemma LastFriendshipMakesFriends(friendships: seq<Friendship>, requests: seq<FriendRequest>, a: UserId, b: UserId)
    requires |friendships| > 0 && Connects(friendships[|friendships| - 1], a, b) && a != b
    ensures GetFriendshipStatus(friendships, requests, a, b).Friends?
    ensures GetFriendshipStatus(friendships, requests, b, a).Friends?
  {
    assert Connects(friendships[|friendships| - 1], b, a);
  }

  /**
   * `declineRequest`: marks declined the request with that id if it is
   * addressed to the caller and pending; in every other case nothing changes
   * and no error is raised.
   */
  method DeclineRequest(db: Database, caller: UserId, requestId: int)
    requires db.Valid()
    modifies db
    ensures db.Valid()
    ensures db.friendRequests == UpdateWhere(old(db.friendRequests), PendingFor(requestId, caller), MarkStatus(Declined))
    ensures FindPendingFor(old(db.friendRequests), requestId, caller).None? ==>
      db.friendRequests == old(db.friendRequests)
    ensures db.users == old(db.users) && db.posts == old(db.posts) && db.friendships == old(db.friendships)
    ensures db.nextPostId == old(db.nextPostId) && db.nextRequestId == old(db.nextRequestId)
    ensures db.nextFriendshipId == old(db.nextFriendshipId) && db.clock == old(db.clock)
  {
    MarkKeepsRequestsValid(db.friendRequests, PendingFor(requestId, caller), Declined, db.nextRequestId, db.clock);
    db.friendRequests := UpdateWhere(db.friendRequests, PendingFor(requestId, caller), MarkStatus(Declined));
  }

  /**
   * `removeFriend`: deletes every friendship row joining the caller and
   * `friendId`, in either column order; succeeds when there is none.
   */
  method RemoveFriend(db: Database, caller: UserId, friendId: UserId)
    requires db.Valid()
    modifies db
    ensures db.Valid()
    ensures db.friendships == DeleteWhere(old(db.friendships), ConnectsPair(caller, friendId))
    ensures forall f :: f in db.friendships <==> f in old(db.friendships) && !Connects(f, caller, friendId)
    ensures !AreFriends(db.friendships, caller, friendId)
    ensures caller != friendId ==>
      !GetFriendshipStatus(db.friendships, db.friendRequests, caller, friendId).Friends?
    ensures NoDuplicatePairs(old(db.friendships)) ==> NoDuplicatePairs(db.friendships)
    ensures db.users == old(db.users) && db.posts == old(db.posts) && db.friendRequests == old(db.friendRequests)
    ensures db.nextPostId == old(db.nextPostId) && db.nextRequestId == old(db.nextRequestId)
    ensures db.nextFriendshipId == old(db.nextFriendshipId) && db.clock == old(db.clock)
  {
    ghost var before := db.friendships;
    db.friendships := DeleteWhere(db.friendships, ConnectsPair(caller, friendId));
    FilterKeepsDistinct(before, Not(ConnectsPair(caller, friendId)), FriendshipKey);
    if NoDuplicatePairs(before) {
      FilterKeepsDistinct(before, Not(ConnectsPair(caller, friendId)), PairKey);
    }
    forall i | 0 <= i < |db.friendships|
      ensures db.friendships[i].id < db.nextFriendshipId && db.friendships[i].createdAt < db.clock
      ensures Canonical(db.friendships[i])
    {
      assert db.friendships[i] in before;
    }
  }

  /** Removing a friend a second time changes nothing. */
  lemma RemoveFriendIdempotent(friendships: seq<Friendship>, caller: UserId, friendId: UserId)
    ensures var once := DeleteWhere(friendships, ConnectsPair(caller, friendId));
            DeleteWhere(once, ConnectsPair(caller, friendId)) == once
  {
    FilterIdempotent(friendships, Not(ConnectsPair(caller, friendId)));
  }
}

=== FILE: js.dfy ===
/**
 * JavaScript string values as the routers see them: a string is a sequence of
 * UTF-16 code units, `.length` counts code units, and `<` on two strings
 * compares them code unit by code unit.
 */
module Js {

  /** One UTF-16 code unit. */
  type CodeUnit = c: int | 0 <= c < 0x1_0000

  type JsString = seq<CodeUnit>

  /**
   * JavaScript's `a < b` on strings: at the first position where the two
   * differ, the smaller code unit wins; a proper prefix is smaller than the
   * longer string. (Dafny's own `<` on sequences means "proper prefix" only.)
   */
  predicate Less(a: JsString, b: JsString)
    decreases |a|
  {
    if |a| == 0 then |b| > 0
    else if |b| == 0 then false
    else if a[0] != b[0] then a[0] < b[0]
    else Less(a[1..], b[1..])
  }

  lemma {:induction false} LessIrreflexive(a: JsString)
    ensures !Less(a, a)
    decreases |a|
  {
    if |a| > 0 {
      LessIrreflexive(a[1..]);
    }
  }

  lemma {:induction false} LessAsymmetric(a: JsString, b: JsString)
    requires Less(a, b)
    ensures !Less(b, a)
    decreases |a|
  {
    if |a| > 0 && |b| > 0 && a[0] == b[0] {
      LessAsymmetric(a[1..], b[1..]);
    }
  }

  lemma {:induction false} LessTransitive(a: JsString, b: JsString, c: JsString)
    requires Less(a, b) && Less(b, c)
    ensures Less(a, c)
    decreases |a|
  {
    if |a| > 0 && a[0] == b[0] && b[0] == c[0] {
      LessTransitive(a[1..], b[1..], c[1..]);
    }
  }

  /** Any two strings are equal or ordered one way or the other. */
  lemma {:induction false} LessTrichotomy(a: JsString, b: JsString)
    ensures Less(a, b) || a == b || Less(b, a)
    decreases |a|
  {
    if |a| > 0 && |b| > 0 && a[0] == b[0] {
      LessTrichotomy(a[1..], b[1..]);
      if a[1..] == b[1..] {
        assert a == [a[0]] + a[1..] && b == [b[0]] + b[1..];
      }
    }
  }
}

=== FILE: post.dfy ===
/**
 * The post router: a greeting, the creation of posts by the signed-in user,
 * the newest post, the newest-first listing with each author, and the
 * rename and delete of a post, both allowed to its author only.
 */
module PostRouter {
  import opened Wrappers
  import opened Js
  import opened Query
  import opened Schema

  // ---------------------------------------------------------------------------
  // hello

  /** The text `"Hello "`, as UTF-16 code units. */
  const HelloPrefix: JsString := [72, 101, 108, 108, 111, 32]

  /** The value of `hello`: an object with one field. */
  datatype Greeting = Greeting(greeting: JsString)

  /** `hello`: the text, after `"Hello "`. */
  function Hello(text: JsString): (r: Greeting)
    ensures |r.greeting| == |HelloPrefix| + |text|
    ensures r.greeting[..|HelloPrefix|] == HelloPrefix && r.greeting[|HelloPrefix|..] == text
  {
    Greeting(HelloPrefix + text)
  }

  /** Different texts give different greetings: the text can be read back from the greeting. */
  lemma HelloInjective(a: JsString, b: JsString)
    requires Hello(a) == Hello(b)
    ensures a == b
  {
    assert a == Hello(a).greeting[|HelloPrefix|..];
  }

  // ---------------------------------------------------------------------------
  // Row conditions

  function PostHasId(id: int): Post -> bool {
    (p: Post) => p.id == id
  }

  /** The post with this id, if its author is `caller` (the ownership lookup of update and delete). */
  function OwnedBy(id: int, caller: UserId): Post -> bool {
    (p: Post) => p.id == id && p.createdById == caller
  }

  function Rename(name: JsString): Post -> Post {
    (p: Post) => p.(name := name)
  }

  function PostCreatedAt(p: Post): int { p.createdAt }

  // ---------------------------------------------------------------------------
  // Reads

  /**
   * `getLatest`: the first post in newest-first order, or null when there
   * are no posts.
   */
  function GetLatest(posts: seq<Post>): (r: Option<Post>)
    ensures r.None? <==> |posts| == 0
    ensures r.Some? ==> r.value in posts && forall p :: p in posts ==> p.createdAt <= r.value.createdAt
  {
    if |posts| == 0 then None
    else
      var sorted := SortDesc(posts, PostCreatedAt);
      assert sorted[0] in multiset(posts);
      assert forall p :: p in posts ==> p.createdAt <= sorted[0].createdAt by {
        forall p | p in posts ensures p.createdAt <= sorted[0].createdAt {
          assert p in multiset(sorted);
          var i :| 0 <= i < |sorted| && sorted[i] == p;
          if i > 0 {
            assert PostCreatedAt(sorted[0]) >= PostCreatedAt(sorted[i]);
          }
        }
      }
      Some(sorted[0])
  }

  /** A post stamped later than every other is the one `getLatest` returns. */
  lemma NewestIsLatest(posts: seq<Post>, p: Post)
    requires forall q :: q in posts ==> q.createdAt < p.createdAt
    ensures GetLatest(posts + [p]) == Some(p)
  {
    assert p in posts + [p];
  }

  /** An entry of `getAll`: the post and the `{ id, name, image }` of its author. */
  datatype PostView = PostView(post: Post, createdBy: Option<UserSummary>)

  function WithAuthor(users: seq<User>): Post -> PostView {
    (p: Post) => PostView(p, SummaryOf(users, p.createdById))
  }

  function PostViewCreatedAt(v: PostView): int { v.post.createdAt }

  /** `getAll`: every post with its author, newest first. */
  function GetAll(posts: seq<Post>, users: seq<User>): (r: seq<PostView>)
    ensures multiset(r) == multiset(MapSeq(posts, WithAuthor(users)))
    ensures SortedDesc(r, PostViewCreatedAt)
    ensures forall v :: v in r ==> v.post in posts && v.createdBy == SummaryOf(users, v.post.createdById)
  {
    var sorted := SortDesc(posts, PostCreatedAt);
    MapSeqPermutation(sorted, posts, WithAuthor(users));
    var r := MapSeq(sorted, WithAuthor(users));
    assert forall v :: v in r ==> v.post in posts && v.createdBy == SummaryOf(users, v.post.createdById) by {
      forall v | v in r ensures v.post in posts && v.createdBy == SummaryOf(users, v.post.createdById) {
        var j :| 0 <= j < |sorted| && r[j] == v;
        assert sorted[j] in multiset(posts);
      }
    }
    r
  }

  /** Every post appears in `getAll`. */
  lemma GetAllListsEveryPost(posts: seq<Post>, users: seq<User>, p: Post)
    requires p in posts
    ensures PostView(p, SummaryOf(users, p.createdById)) in GetAll(posts, users)
  {
    var i :| 0 <= i < |posts| && posts[i] == p;
    var mapped := MapSeq(posts, WithAuthor(users));
    assert mapped[i] == PostView(p, SummaryOf(users, p.createdById));
    assert mapped[i] in multiset(GetAll(posts, users));
  }

  // ---------------------------------------------------------------------------
  // Mutations

  lemma AppendKeepsPostsValid(posts: seq<Post>, nextId: int, clock: nat, p: Post)
    requires PostsValid(posts, nextId, clock)
    requires p.id == nextId && p.createdAt == clock
    ensures PostsValid(posts + [p], nextId + 1, clock + 1)
  {
    var ps := posts + [p];
    forall i, j | 0 <= i < j < |ps| ensures ps[i].id != ps[j].id {
      assert ps[i] == posts[i];
    }
  }

  /**
   * `create`: a text of at least one code unit becomes a new post by the
   * caller, stamped with the current time.
   */
  method Create(db: Database, caller: UserId, name: JsString) returns (r: Outcome)
    requires db.Valid()
    modifies db
    ensures db.Valid()
    ensures r.Fail? <==> |name| < 1
    ensures r.Fail? ==> r.error == InvalidInput
    ensures db.users == old(db.users) && db.friendRequests == old(db.friendRequests)
    ensures db.friendships == old(db.friendships)
    ensures db.nextRequestId == old(db.nextRequestId) && db.nextFriendshipId == old(db.nextFriendshipId)
    ensures r.Fail? ==>
      db.posts == old(db.posts) && db.nextPostId == old(db.nextPostId) && db.clock == old(db.clock)
    ensures r.Pass? ==>
      && db.posts == old(db.posts) + [Post(old(db.nextPostId), name, caller, old(db.clock))]
      && db.nextPostId == old(db.nextPostId) + 1
      && db.clock == old(db.clock) + 1
  {
    if |name| < 1 {
      return Fail(InvalidInput);
    }
    var post := Post(db.nextPostId, name, caller, db.clock);
    AppendKeepsPostsValid(db.posts, db.nextPostId, db.clock, post);
    RequestsValidLater(db.friendRequests, db.nextRequestId, db.clock);
    FriendshipsValidLater(db.friendships, db.nextFriendshipId, db.clock);
    db.posts, db.nextPostId, db.clock := db.posts + [post], db.nextPostId + 1, db.clock + 1;
    r := Pass;
  }

  /** In a consistent database, the post just created is the one `getLatest` returns. */
  lemma CreatedPostIsLatest(posts: seq<Post>, nextId: int, clock: nat, name: JsString, caller: UserId)
    requires PostsValid(posts, nextId, clock)
    ensures GetLatest(posts + [Post(nextId, name, caller, clock)]) == Some(Post(nextId, name, caller, clock))
  {
    forall q | q in posts ensures q.createdAt < clock {
      var i :| 0 <= i < |posts| && posts[i] == q;
    }
    NewestIsLatest(posts, Post(nextId, name, caller, clock));
  }

  /**
   * `update`: a text of 1 to 280 code units replaces the text of the post
   * with that id, provided the caller wrote it; a missing post and someone
   * else's post give the same error.
   */
  method Update(db: Database, caller: UserId, id: int, name: JsString) returns (r: Outcome)
    requires db.Valid()
    modifies db
    ensures db.Valid()
    ensures r == if !(1 <= |name| <= 280) then Fail(InvalidInput)
                 else if FindFirst(old(db.posts), OwnedBy(id, caller)).None? then Fail(PostNotFoundOrForbidden)
                 else Pass
    ensures r.Fail? ==> db.posts == old(db.posts)
    ensures r.Pass? ==> db.posts == UpdateWhere(old(db.posts), PostHasId(id), Rename(name))
    ensures db.users == old(db.users) && db.friendRequests == old(db.friendRequests)
    ensures db.friendships == old(db.friendships) && db.nextPostId == old(db.nextPostId)
    ensures db.nextRequestId == old(db.nextRequestId) && db.nextFriendshipId == old(db.nextFriendshipId)
    ensures db.clock == old(db.clock)
  {
    if !(1 <= |name| <= 280) {
      return Fail(InvalidInput);
    }
    var post := FindFirst(db.posts, OwnedBy(id, caller));
    if post.None? {
      return Fail(PostNotFoundOrForbidden);
    }
    UpdateKeepsDistinct(db.posts, PostHasId(id), Rename(name), PostKey);
    ghost var before := db.posts;
    db.posts := UpdateWhere(db.posts, PostHasId(id), Rename(name));
    forall i | 0 <= i < |db.posts| ensures db.posts[i].id < db.nextPostId && db.posts[i].createdAt < db.clock {
      assert db.posts[i].id == before[i].id && db.posts[i].createdAt == before[i].createdAt;
    }
    r := Pass;
  }

  /**
   * A rename changes the text of the post with that id and nothing else:
   * every post keeps its id, author and time, and every other post is as
   * it was.
   */
  lemma RenameChangesOnlyText(posts: seq<Post>, id: int, name: JsString)
    ensures var after := UpdateWhere(posts, PostHasId(id), Rename(name));
      && |after| == |posts|
      && forall i :: 0 <= i < |posts| ==>
           && after[i].id == posts[i].id
           && after[i].createdById == posts[i].createdById
           && after[i].createdAt == posts[i].createdAt
           && after[i].name == (if posts[i].id == id then name else posts[i].name)
  {
  }

  /** Reading the post back after a rename gives the renamed post. */
  lemma RenameReadBack(posts: seq<Post>, id: int, name: JsString)
    ensures FindFirst(UpdateWhere(posts, PostHasId(id), Rename(name)), PostHasId(id)) ==
            match FindFirst(posts, PostHasId(id))
            case None => None
            case Some(p) => Some(p.(name := name))
  {
    FindAfterUpdate(posts, PostHasId(id), Rename(name));
  }

  /**
   * `delete`: removes the post with that id, provided the caller wrote it;
   * a missing post and someone else's post give the same error.
   */
  method Delete(db: Database, caller: UserId, id: int) returns (r: Outcome)
    requires db.Valid()
    modifies db
    ensures db.Valid()
    ensures r == if FindFirst(old(db.posts), OwnedBy(id, caller)).None? then Fail(PostNotFoundOrForbidden) else Pass
    ensures r.Fail? ==> db.posts == old(db.posts)
    ensures r.Pass? ==> db.posts == DeleteWhere(old(db.posts), PostHasId(id))
    ensures r.Pass? ==>
      exists k :: 0 <= k < |old(db.posts)| && old(db.posts)[k].id == id && old(db.posts)[k].createdById == caller &&
                  db.posts == old(db.posts)[..k] + old(db.posts)[k + 1..]
    ensures db.users == old(db.users) && db.friendRequests == old(db.friendRequests)
    ensures db.friendships == old(db.friendships) && db.nextPostId == old(db.nextPostId)
    ensures db.nextRequestId == old(db.nextRequestId) && db.nextFriendshipId == old(db.nextFriendshipId)
    ensures db.clock == old(db.clock)
  {
    var post := FindFirst(db.posts, OwnedBy(id, caller));
    if post.None? {
      return Fail(PostNotFoundOrForbidden);
    }
    ghost var before := db.posts;
    ghost var k := DeletedIndex(before, id, caller);
    db.posts := DeleteWhere(db.posts, PostHasId(id));
    FilterKeepsDistinct(before, Not(PostHasId(id)), PostKey);
    forall i | 0 <= i < |db.posts| ensures db.posts[i].id < db.nextPostId && db.posts[i].createdAt < db.clock {
      assert db.posts[i] in before;
    }
    r := Pass;
  }

  /**
   * In a table with distinct ids, deleting by the id of a post the caller
   * owns removes exactly that one row.
   */
  lemma DeletedIndex(posts: seq<Post>, id: int, caller: UserId) returns (k: nat)
    requires DistinctKeys(posts, PostKey)
    requires FindFirst(posts, OwnedBy(id, caller)).Some?
    ensures k < |posts| && posts[k].id == id && posts[k].createdById == caller
    ensures DeleteWhere(posts, PostHasId(id)) == posts[..k] + posts[k + 1..]
  {
    var found := FindFirst(posts, OwnedBy(id, caller)).value;
    k :| 0 <= k < |posts| && posts[k] == found && OwnedBy(id, caller)(posts[k]);
    forall i | 0 <= i < |posts| && i != k ensures Not(PostHasId(id))(posts[i]) {
      if i < k {
        assert PostKey(posts[i]) != PostKey(posts[k]);
      } else {
        assert PostKey(posts[k]) != PostKey(posts[i]);
      }
    }
    FilterDropsOne(posts, Not(PostHasId(id)), k);
  }
}

=== FILE: query.dfy ===
/**
 * The meaning of the ORM calls the routers make against one table, with a
 * table taken as the sequence of its rows in their natural order:
 * `findFirst` (FindFirst), `findMany({ where })` (Filter), `orderBy desc`
 * (SortDesc), `update().set().where()` (UpdateWhere) and
 * `delete().where()` (DeleteWhere).
 */
module Query {
  import opened Wrappers

  /** No two rows share a key (a primary-key column). */
  ghost predicate DistinctKeys<T, K>(s: seq<T>, key: T -> K) {
    forall i, j :: 0 <= i < j < |s| ==> key(s[i]) != key(s[j])
  }

  /** `findFirst({ where: p })`: the first row satisfying `p`, if any. */
  function FindFirst<T>(s: seq<T>, p: T -> bool): (r: Option<T>)
    ensures r.None? <==> forall i :: 0 <= i < |s| ==> !p(s[i])
    ensures r.Some? ==> exists i :: 0 <= i < |s| && s[i] == r.value && p(s[i]) &&
                                    forall j :: 0 <= j < i ==> !p(s[j])
  {
    if |s| == 0 then None
    else if p(s[0]) then Some(s[0])
    else
      FindFirst(s[1..], p)
  }

  /** `findMany({ where: p })`: the rows satisfying `p`, in table order. */
  function Filter<T(!new)>(s: seq<T>, p: T -> bool): (r: seq<T>)
    ensures |r| <= |s|
    ensures forall x {:trigger x in r} {:trigger x in s} :: x in r <==> x in s && p(x)
    ensures forall x {:trigger multiset(r)[x]} :: multiset(r)[x] == if p(x) then multiset(s)[x] else 0
  {
    if |s| == 0 then []
    else
      assert s == [s[0]] + s[1..];
      var rest := Filter(s[1..], p);
      if p(s[0]) then [s[0]] + rest else rest
  }

  /** The complement of a row condition. */
  function Not<T>(p: T -> bool): T -> bool {
    x => !p(x)
  }

  /** `delete().where(p)`: the rows that survive the delete. */
  function DeleteWhere<T(!new)>(s: seq<T>, p: T -> bool): (r: seq<T>)
    ensures forall x :: x in r <==> x in s && !p(x)
    ensures forall i :: 0 <= i < |r| ==> !p(r[i])
  {
    Filter(s, Not(p))
  }

  /** `update().set(f).where(p)`: every row satisfying `p` is rewritten by `f`, in place. */
  function UpdateWhere<T>(s: seq<T>, p: T -> bool, f: T -> T): (r: seq<T>)
    ensures |r| == |s|
    ensures forall i :: 0 <= i < |s| ==> r[i] == if p(s[i]) then f(s[i]) else s[i]
  {
    seq(|s|, i requires 0 <= i < |s| => if p(s[i]) then f(s[i]) else s[i])
  }

  /** Applies `f` to each row (the `.map` over a result, or a relation join). */
  function MapSeq<T, U>(s: seq<T>, f: T -> U): (r: seq<U>)
    ensures |r| == |s|
    ensures forall i {:trigger r[i]} :: 0 <= i < |s| ==> r[i] == f(s[i])
  {
    if |s| == 0 then [] else [f(s[0])] + MapSeq(s[1..], f)
  }

  /** Largest key first. */
  ghost predicate SortedDesc<T>(s: seq<T>, key: T -> int) {
    forall i, j :: 0 <= i < j < |s| ==> key(s[i]) >= key(s[j])
  }

  /** Puts `x` into the descending sequence `s` ahead of the first row whose key is not larger. */
  function InsertDesc<T>(x: T, s: seq<T>, key: T -> int): (r: seq<T>)
    requires SortedDesc(s, key)
    ensures SortedDesc(r, key)
    ensures multiset(r) == multiset(s) + multiset{x}
  {
    if |s| == 0 || key(x) >= key(s[0]) then
      ConsSorted(x, s, key);
      [x] + s
    else
      assert s == [s[0]] + s[1..];
      var rest := InsertDesc(x, s[1..], key);
      BoundedAfterInsert(x, s[1..], rest, key(s[0]), key);
      ConsSorted(s[0], rest, key);
      [s[0]] + rest
  }

  /** A row keyed at least as large as the head of a descending sequence can go in front of it. */
  lemma ConsSorted<T>(h: T, s: seq<T>, key: T -> int)
    requires SortedDesc(s, key) && (|s| == 0 || key(s[0]) <= key(h))
    ensures SortedDesc([h] + s, key)
  {
    var r := [h] + s;
    forall i, j | 0 <= i < j < |r| ensures key(r[i]) >= key(r[j]) {
      if i == 0 && j > 1 {
        assert key(s[0]) >= key(s[j - 1]);
      }
    }
  }

  /** Rows all keyed at most `bound`, plus one more such row, are all keyed at most `bound`. */
  lemma BoundedAfterInsert<T>(x: T, s: seq<T>, r: seq<T>, bound: int, key: T -> int)
    requires multiset(r) == multiset(s) + multiset{x}
    requires key(x) <= bound && forall y :: y in s ==> key(y) <= bound
    ensures forall y :: y in r ==> key(y) <= bound
  {
    forall y | y in r ensures key(y) <= bound {
      assert y in multiset(r);
      if y != x {
        assert y in multiset(s);
      }
    }
  }

  /** `orderBy: desc(key)`: the same rows, largest key first. */
  function SortDesc<T>(s: seq<T>, key: T -> int): (r: seq<T>)
    ensures SortedDesc(r, key)
    ensures multiset(r) == multiset(s)
    ensures |r| == |s|
  {
    if |s| == 0 then []
    else
      assert s == [s[0]] + s[1..];
      var r := InsertDesc(s[0], SortDesc(s[1..], key), key);
      assert |r| == |multiset(r)|;
      r
  }

  /** Taking one row out of a sequence takes its image out of the mapped sequence. */
  lemma {:induction false} MapSeqRemove<T, U>(b: seq<T>, k: nat, f: T -> U)
    requires k < |b|
    ensures multiset(MapSeq(b, f)) == multiset{f(b[k])} + multiset(MapSeq(b[..k] + b[k + 1..], f))
    decreases k
  {
    var c := b[..k] + b[k + 1..];
    var m := MapSeq(b, f);
    assert m == [f(b[0])] + MapSeq(b[1..], f);
    if k == 0 {
      assert c == b[1..];
    } else {
      var t := b[1..];
      assert c == [b[0]] + (t[..k - 1] + t[k..]);
      assert MapSeq(c, f) == [f(b[0])] + MapSeq(t[..k - 1] + t[k..], f);
      assert multiset(MapSeq(t, f)) == multiset{f(b[k])} + multiset(MapSeq(t[..k - 1] + t[k..], f)) by {
        MapSeqRemove(t, k - 1, f);
      }
    }
  }

  /** A position at which `x` occurs in `s`. */
  lemma IndexOf<T>(s: seq<T>, x: T) returns (k: nat)
    requires x in multiset(s)
    ensures k < |s| && s[k] == x
  {
    k :| k < |s| && s[k] == x;
  }

  /** Taking out the row at `k` takes one copy of it out of the multiset. */
  lemma RemoveOne<T>(b: seq<T>, k: nat)
    requires k < |b|
    ensures multiset(b[..k] + b[k + 1..]) == multiset(b) - multiset{b[k]}
  {
    assert b == b[..k] + [b[k]] + b[k + 1..];
  }

  /** Mapping two permutations of one another gives two permutations of one another. */
  lemma {:induction false} MapSeqPermutation<T, U>(a: seq<T>, b: seq<T>, f: T -> U)
    requires multiset(a) == multiset(b)
    ensures multiset(MapSeq(a, f)) == multiset(MapSeq(b, f))
    decreases |a|
  {
    if |a| > 0 {
      var k := IndexOf(b, a[0]);
      var b' := b[..k] + b[k + 1..];
      assert multiset(a[1..]) == multiset(b') by {
        assert a == [a[0]] + a[1..];
        RemoveOne(b, k);
      }
      assert multiset(MapSeq(a[1..], f)) == multiset(MapSeq(b', f)) by {
        MapSeqPermutation(a[1..], b', f);
      }
      assert multiset(MapSeq(b, f)) == multiset{f(a[0])} + multiset(MapSeq(b', f)) by {
        MapSeqRemove(b, k, f);
      }
      assert multiset(MapSeq(a, f)) == multiset{f(a[0])} + multiset(MapSeq(a[1..], f)) by {
        assert MapSeq(a, f) == [f(a[0])] + MapSeq(a[1..], f);
      }
    }
  }

  /** Filtering twice by the same condition is filtering once (a repeated delete changes nothing). */
  lemma {:induction false} FilterIdempotent<T(!new)>(s: seq<T>, p: T -> bool)
    ensures Filter(Filter(s, p), p) == Filter(s, p)
    decreases |s|
  {
    if |s| > 0 {
      FilterIdempotent(s[1..], p);
    }
  }

  /** A filter that drops exactly the row at `k` leaves the others in order. */
  lemma {:induction false} FilterDropsOne<T(!new)>(s: seq<T>, p: T -> bool, k: nat)
    requires k < |s| && !p(s[k])
    requires forall i :: 0 <= i < |s| && i != k ==> p(s[i])
    ensures Filter(s, p) == s[..k] + s[k + 1..]
    decreases |s|
  {
    var t := s[1..];
    if k == 0 {
      assert Filter(t, p) == t by {
        FilterKeepsAll(t, p);
      }
      assert Filter(s, p) == Filter(t, p);
    } else {
      assert Filter(t, p) == s[1..k] + s[k + 1..] by {
        FilterDropsOne(t, p, k - 1);
        assert t[..k - 1] + t[k..] == s[1..k] + s[k + 1..];
      }
      assert Filter(s, p) == [s[0]] + Filter(t, p);
      assert s[..k] == [s[0]] + s[1..k];
    }
  }

  lemma {:induction false} FilterKeepsAll<T(!new)>(s: seq<T>, p: T -> bool)
    requires forall i :: 0 <= i < |s| ==> p(s[i])
    ensures Filter(s, p) == s
    decreases |s|
  {
    if |s| > 0 {
      FilterKeepsAll(s[1..], p);
      assert s == [s[0]] + s[1..];
    }
  }

  /** Removing rows from a table keeps its keys distinct. */
  lemma {:induction false} FilterKeepsDistinct<T(!new), K>(s: seq<T>, p: T -> bool, key: T -> K)
    requires DistinctKeys(s, key)
    ensures DistinctKeys(Filter(s, p), key)
    decreases |s|
  {
    if |s| > 0 {
      var rest := Filter(s[1..], p);
      FilterKeepsDistinct(s[1..], p, key);
      if p(s[0]) {
        forall y | y in rest ensures key(y) != key(s[0]) {
          var i :| 0 <= i < |s[1..]| && s[1..][i] == y;
          assert s[i + 1] == y;
        }
        var r := [s[0]] + rest;
        forall i, j | 0 <= i < j < |r| ensures key(r[i]) != key(r[j]) {
          if i > 0 {
            assert r[i] == rest[i - 1] && r[j] == rest[j - 1];
          } else {
            assert r[j] in rest;
          }
        }
      }
    }
  }

  /** Rewriting rows without touching their key keeps the keys distinct. */
  lemma UpdateKeepsDistinct<T, K>(s: seq<T>, p: T -> bool, f: T -> T, key: T -> K)
    requires DistinctKeys(s, key)
    requires forall x :: key(f(x)) == key(x)
    ensures DistinctKeys(UpdateWhere(s, p, f), key)
  {
    var r := UpdateWhere(s, p, f);
    forall i, j | 0 <= i < j < |r| ensures key(r[i]) != key(r[j]) {
      assert key(r[i]) == key(s[i]) && key(r[j]) == key(s[j]);
    }
  }

  /**
   * Reading back, by its key, a row that an update addressed by that key
   * gives the updated row.
   */
  lemma {:induction false} FindAfterUpdate<T>(s: seq<T>, p: T -> bool, f: T -> T)
    requires forall x :: p(x) ==> p(f(x))
    ensures FindFirst(UpdateWhere(s, p, f), p) ==
            match FindFirst(s, p)
            case None => None
            case Some(x) => Some(f(x))
    decreases |s|
  {
    if |s| > 0 {
      var r := UpdateWhere(s, p, f);
      assert r[1..] == UpdateWhere(s[1..], p, f);
      FindAfterUpdate(s[1..], p, f);
    }
  }
}

=== FILE: schema.dfy ===
/**
 * The rows the routers read and write, the errors they raise, and the
 * database itself: one object holding the users, posts, friend_requests and
 * friendships tables, which every router procedure receives as `ctx.db`.
 */
module Schema {
  import opened Wrappers
  import opened Js
  import opened Query

  type UserId = JsString

  /** A users row; nullable columns are `Option`s. Rows are created by the identity provider. */
  datatype User = User(
    id: UserId,
    name: Option<JsString>,
    email: Option<JsString>,
    emailVerified: Option<nat>,
    image: Option<JsString>,
    bio: Option<JsString>,
    location: Option<JsString>,
    onboardingComplete: bool)

  /** A posts row; `name` holds the text of the post. */
  datatype Post = Post(id: int, name: JsString, createdById: UserId, createdAt: nat)

  datatype RequestStatus = Pending | Accepted | Declined

  datatype FriendRequest = FriendRequest(
    id: int, senderId: UserId, receiverId: UserId, status: RequestStatus, createdAt: nat)

  /** An undirected friendship stored as an ordered pair of user ids. */
  datatype Friendship = Friendship(id: int, user1Id: UserId, user2Id: UserId, createdAt: nat)

  /** The columns `{ id, name, image }` that a relation join selects from users. */
  datatype UserSummary = UserSummary(id: UserId, name: Option<JsString>, image: Option<JsString>)

  /**
   * Why a procedure failed: `InvalidInput` is a rejected input schema; the
   * others are the `Error`s the routers throw.
   */
  datatype Error =
    | InvalidInput
    | AlreadyFriends            // "Users are already friends"
    | RequestAlreadySent        // "Friend request already sent"
    | RequestNotFound           // "Friend request not found"
    | PostNotFoundOrForbidden   // "Post not found or you don't have permission to ..."
    | NoValuesToSet             // the ORM refuses an update whose `set` has no defined key

  /** The result of a mutation whose success value carries nothing. */
  datatype Outcome = Pass | Fail(error: Error)

  datatype Result<T> = Ok(value: T) | Err(error: Error)

  function UserKey(u: User): UserId { u.id }
  function PostKey(p: Post): int { p.id }
  function RequestKey(q: FriendRequest): int { q.id }
  function FriendshipKey(f: Friendship): int { f.id }

  function UserHasId(id: UserId): User -> bool {
    (u: User) => u.id == id
  }

  /** `users.findFirst({ where: eq(users.id, id) })`, or null. */
  function FindUserById(users: seq<User>, id: UserId): (r: Option<User>)
    ensures r.Some? <==> exists i :: 0 <= i < |users| && users[i].id == id
    ensures r.Some? ==> r.value in users && r.value.id == id
  {
    FindFirst(users, UserHasId(id))
  }

  /** The `{ id, name, image }` of the user with this id, or null when no such row exists. */
  function SummaryOf(users: seq<User>, id: UserId): (r: Option<UserSummary>)
    ensures r.Some? <==> exists i :: 0 <= i < |users| && users[i].id == id
    ensures r.Some? ==> r.value.id == id
  {
    match FindUserById(users, id)
    case None => None
    case Some(u) => Some(UserSummary(u.id, u.name, u.image))
  }

  /** Friendship pairs are stored smaller id first, under JavaScript string order. */
  predicate Canonical(f: Friendship) {
    !Less(f.user2Id, f.user1Id)
  }

  /** At most one pending request per ordered (sender, receiver) pair. */
  ghost predicate AtMostOnePending(requests: seq<FriendRequest>) {
    forall i, j :: 0 <= i < j < |requests| && requests[i].status == Pending && requests[j].status == Pending ==>
      requests[i].senderId != requests[j].senderId || requests[i].receiverId != requests[j].receiverId
  }

  /** Post ids are distinct and were issued by the counter; every post is older than `clock`. */
  ghost predicate PostsValid(posts: seq<Post>, nextId: int, clock: nat) {
    && DistinctKeys(posts, PostKey)
    && (forall i :: 0 <= i < |posts| ==> posts[i].id < nextId && posts[i].createdAt < clock)
  }

  /** Advancing the clock keeps every post in the past. */
  lemma PostsValidLater(posts: seq<Post>, nextId: int, clock: nat)
    requires PostsValid(posts, nextId, clock)
    ensures PostsValid(posts, nextId, clock + 1)
  {
  }

  /** As for posts, and at most one request per ordered pair is pending. */
  ghost predicate RequestsValid(requests: seq<FriendRequest>, nextId: int, clock: nat) {
    && DistinctKeys(requests, RequestKey)
    && (forall i :: 0 <= i < |requests| ==> requests[i].id < nextId && requests[i].createdAt < clock)
    && AtMostOnePending(requests)
  }

  lemma RequestsValidLater(requests: seq<FriendRequest>, nextId: int, clock: nat)
    requires RequestsValid(requests, nextId, clock)
    ensures RequestsValid(requests, nextId, clock + 1)
  {
  }

  /** As for posts, and every pair is stored smaller id first. */
  ghost predicate FriendshipsValid(friendships: seq<Friendship>, nextId: int, clock: nat) {
    && DistinctKeys(friendships, FriendshipKey)
    && (forall i :: 0 <= i < |friendships| ==> friendships[i].id < nextId && friendships[i].createdAt < clock)
    && (forall i :: 0 <= i < |friendships| ==> Canonical(friendships[i]))
  }

  lemma FriendshipsValidLater(friendships: seq<Friendship>, nextId: int, clock: nat)
    requires FriendshipsValid(friendships, nextId, clock)
    ensures FriendshipsValid(friendships, nextId, clock + 1)
  {
  }

  /**
   * The database. Serial ids come from one counter per table; `clock` is an
   * abstract timestamp that every insert reads and advances, standing in for
   * the `createdAt` default.
   */
  class Database {
    var users: seq<User>
    var posts: seq<Post>
    var friendRequests: seq<FriendRequest>
    var friendships: seq<Friendship>
    var nextPostId: int
    var nextRequestId: int
    var nextFriendshipId: int
    var clock: nat

    ghost predicate Valid()
      reads this
    {
      && DistinctKeys(users, UserKey)
      && PostsValid(posts, nextPostId, clock)
      && RequestsValid(friendRequests, nextRequestId, clock)
      && FriendshipsValid(friendships, nextFriendshipId, clock)
    }

    /** A database holding the given users and nothing else. */
    constructor (users: seq<User>)
      requires DistinctKeys(users, UserKey)
      ensures Valid()
      ensures this.users == users && posts == [] && friendRequests == [] && friendships == []
      ensures nextPostId == 1 && nextRequestId == 1 && nextFriendshipId == 1 && clock == 0
    {
      this.users := users;
      posts, friendRequests, friendships := [], [], [];
      nextPostId, nextRequestId, nextFriendshipId := 1, 1, 1;
      clock := 0;
    }
  }
}

=== FILE: user.dfy ===
/**
 * The user router: reading a user row, and the three updates a user makes
 * to their own row (profile fields, onboarding, profile photo). Every update
 * is addressed by `id == caller`, so no user changes another's row, and none
 * clears `onboardingComplete`.
 *
 * The lookups `getUser`, `getCurrent` and `getById` are `Schema.FindUserById`
 * (with the caller's id, or the given id).
 */
module UserRouter {
  import opened Wrappers
  import opened Js
  import opened Query
  import opened Schema

  // ---------------------------------------------------------------------------
  // Lookups

  /** In a table with distinct ids, the lookup by a row's id finds that row. */
  lemma FindUserByIdIsTheRow(users: seq<User>, u: User)
    requires DistinctKeys(users, UserKey) && u in users
    ensures FindUserById(users, u.id) == Some(u)
  {
    var r := FindUserById(users, u.id);
    var i :| 0 <= i < |users| && users[i] == u;
    var j :| 0 <= j < |users| && users[j] == r.value && UserHasId(u.id)(users[j]) &&
             forall k :: 0 <= k < j ==> !UserHasId(u.id)(users[k]);
  }

  // ---------------------------------------------------------------------------
  // Row updates

  /**
   * A field of an update input: `Omitted` is a key left undefined, which
   * leaves the column as it is; `Given(v)` writes `v`, where `None` is null.
   */
  datatype Patch = Omitted | Given(value: Option<JsString>)

  /** The column after a `set` with this field: kept when omitted, replaced when given. */
  function ApplyPatch(p: Patch, current: Option<JsString>): Option<JsString> {
    match p
    case Omitted => current
    case Given(v) => v
  }

  /** An optional input field: a missing one keeps the column. */
  function OptionalPatch(v: Option<JsString>): Patch {
    match v
    case None => Omitted
    case Some(_) => Given(v)
  }

  /** The `set` of `update`. */
  function EditProfile(name: Patch, bio: Patch, location: Patch): User -> User {
    (u: User) => u.(name := ApplyPatch(name, u.name), bio := ApplyPatch(bio, u.bio),
                    location := ApplyPatch(location, u.location))
  }

  /** The input of `finishOnboarding`. */
  datatype OnboardingInput = OnboardingInput(
    name: JsString,
    email: JsString,
    location: Option<JsString>,
    photoUrl: Option<JsString>,
    bio: Option<JsString>)

  /** The most code units the onboarding bio may have. */
  const MaxBioLength := 160

  /**
   * The input schema of `finishOnboarding`: a name of at least 3 code units,
   * an email address, a URL if a photo is given, a bio of at most 160 code
   * units if one is given. Whether the email and the URL are well formed is
   * decided outside the model and passed in.
   */
  predicate OnboardingAccepted(input: OnboardingInput, emailIsValid: bool, photoUrlIsValid: bool) {
    && |input.name| >= 3
    && emailIsValid
    && (input.photoUrl.Some? ==> photoUrlIsValid)
    && (input.bio.Some? ==> |input.bio.value| <= MaxBioLength)
  }

  /** The `set` of `finishOnboarding`. */
  function Onboard(input: OnboardingInput): User -> User {
    (u: User) => u.(
      name := Some(input.name),
      email := Some(input.email),
      location := ApplyPatch(OptionalPatch(input.location), u.location),
      image := ApplyPatch(OptionalPatch(input.photoUrl), u.image),
      bio := ApplyPatch(OptionalPatch(input.bio), u.bio),
      onboardingComplete := true)
  }

  /** The `set` of `updateProfilePhoto`. */
  function SetImage(photoUrl: JsString): User -> User {
    (u: User) => u.(image := Some(photoUrl))
  }

  /**
   * `after` is `before` with at most the caller's row changed, every row
   * keeping its id.
   */
  ghost predicate OnlyCallerRow(before: seq<User>, after: seq<User>, caller: UserId) {
    && |after| == |before|
    && forall i :: 0 <= i < |before| ==>
         after[i].id == before[i].id && (before[i].id != caller ==> after[i] == before[i])
  }

  /** No row that had finished onboarding has lost the flag. */
  ghost predicate OnboardingKept(before: seq<User>, after: seq<User>) {
    && |after| == |before|
    && forall i :: 0 <= i < |before| && before[i].onboardingComplete ==> after[i].onboardingComplete
  }

  /**
   * An update addressed by `id == caller`, with a `set` that does not touch
   * the id, changes no other row and keeps the ids distinct.
   */
  lemma UpdateCallerRow(users: seq<User>, caller: UserId, f: User -> User)
    requires DistinctKeys(users, UserKey)
    requires forall u :: f(u).id == u.id
    ensures OnlyCallerRow(users, UpdateWhere(users, UserHasId(caller), f), caller)
    ensures DistinctKeys(UpdateWhere(users, UserHasId(caller), f), UserKey)
  {
    UpdateKeepsDistinct(users, UserHasId(caller), f, UserKey);
  }

  /** None of the three `set`s clears `onboardingComplete`; the onboarding one sets it. */
  lemma SetsKeepOnboarding(name: Patch, bio: Patch, location: Patch, input: OnboardingInput, photoUrl: JsString, u: User)
    ensures EditProfile(name, bio, location)(u).onboardingComplete == u.onboardingComplete
    ensures SetImage(photoUrl)(u).onboardingComplete == u.onboardingComplete
    ensures Onboard(input)(u).onboardingComplete
  {
  }

  /** Onboarding twice with the same input leaves the row as onboarding once: there is no guard, and none is needed. */
  lemma OnboardIdempotent(input: OnboardingInput, u: User)
    ensures Onboard(input)(Onboard(input)(u)) == Onboard(input)(u)
  {
  }

  lemma UpdateKeepsOnboarding(users: seq<User>, caller: UserId, f: User -> User)
    requires forall u: User :: u.onboardingComplete ==> f(u).onboardingComplete
    ensures OnboardingKept(users, UpdateWhere(users, UserHasId(caller), f))
  {
  }

  // ---------------------------------------------------------------------------
  // Mutations

  /**
   * `update`: writes the given profile fields on the caller's row and
   * returns that row read back, or `undefined` (here `None`) when the
   * caller has no row. With every field omitted the `set` has no key left,
   * which the ORM refuses with an error; nothing is then written.
   */
  method Update(db: Database, caller: UserId, name: Patch, bio: Patch, location: Patch)
    returns (r: Result<Option<User>>)
    requires db.Valid()
    modifies db
    ensures db.Valid()
    ensures r.Err? <==> name.Omitted? && bio.Omitted? && location.Omitted?
    ensures r.Err? ==> r.error == NoValuesToSet && db.users == old(db.users)
    ensures r.Ok? ==> db.users == UpdateWhere(old(db.users), UserHasId(caller), EditProfile(name, bio, location))
    ensures OnlyCallerRow(old(db.users), db.users, caller)
    ensures OnboardingKept(old(db.users), db.users)
    ensures r.Ok? ==> r.value == match FindUserById(old(db.users), caller)
                                 case None => None
                                 case Some(u) => Some(EditProfile(name, bio, location)(u))
    ensures r.Ok? && r.value.Some? ==>
      && r.value.value.id == caller
      && r.value.value.name == ApplyPatch(name, FindUserById(old(db.users), caller).value.name)
      && r.value.value.bio == ApplyPatch(bio, FindUserById(old(db.users), caller).value.bio)
      && r.value.value.location == ApplyPatch(location, FindUserById(old(db.users), caller).value.location)
    ensures db.posts == old(db.posts) && db.friendRequests == old(db.friendRequests)
    ensures db.friendships == old(db.friendships) && db.nextPostId == old(db.nextPostId)
    ensures db.nextRequestId == old(db.nextRequestId) && db.nextFriendshipId == old(db.nextFriendshipId)
    ensures db.clock == old(db.clock)
  {
    if name.Omitted? && bio.Omitted? && location.Omitted? {
      return Err(NoValuesToSet);
    }
    var edit := EditProfile(name, bio, location);
    UpdateCallerRow(db.users, caller, edit);
    UpdateKeepsOnboarding(db.users, caller, edit);
    FindAfterUpdate(db.users, UserHasId(caller), edit);
    db.users := UpdateWhere(db.users, UserHasId(caller), edit);
    var updated := FindUserById(db.users, caller);
    r := Ok(updated);
  }

  /**
   * `finishOnboarding`: if the input is accepted, writes the onboarding
   * fields and the flag on the caller's row and returns that row read back
   * (`undefined`, here `None`, when the caller has no row); a rejected input
   * changes nothing.
   */
  method FinishOnboarding(db: Database, caller: UserId, input: OnboardingInput, emailIsValid: bool, photoUrlIsValid: bool)
    returns (r: Result<Option<User>>)
    requires db.Valid()
    modifies db
    ensures db.Valid()
    ensures r.Err? <==> !OnboardingAccepted(input, emailIsValid, photoUrlIsValid)
    ensures r.Err? ==> r.error == InvalidInput && db.users == old(db.users)
    ensures r.Ok? ==> db.users == UpdateWhere(old(db.users), UserHasId(caller), Onboard(input))
    ensures OnlyCallerRow(old(db.users), db.users, caller)
    ensures OnboardingKept(old(db.users), db.users)
    ensures r.Ok? ==> r.value == match FindUserById(old(db.users), caller)
                                 case None => None
                                 case Some(u) => Some(Onboard(input)(u))
    ensures r.Ok? && r.value.Some? ==>
      && r.value.value.id == caller
      && r.value.value.onboardingComplete
      && r.value.value.name == Some(input.name)
      && r.value.value.email == Some(input.email)
    ensures db.posts == old(db.posts) && db.friendRequests == old(db.friendRequests)
    ensures db.friendships == old(db.friendships) && db.nextPostId == old(db.nextPostId)
    ensures db.nextRequestId == old(db.nextRequestId) && db.nextFriendshipId == old(db.nextFriendshipId)
    ensures db.clock == old(db.clock)
  {
    if !OnboardingAccepted(input, emailIsValid, photoUrlIsValid) {
      return Err(InvalidInput);
    }
    var onboard := Onboard(input);
    UpdateCallerRow(db.users, caller, onboard);
    UpdateKeepsOnboarding(db.users, caller, onboard);
    FindAfterUpdate(db.users, UserHasId(caller), onboard);
    db.users := UpdateWhere(db.users, UserHasId(caller), onboard);
    var updated := FindUserById(db.users, caller);
    r := Ok(updated);
  }

  /**
   * `updateProfilePhoto`: if the URL is accepted, it becomes the image of
   * the caller's row; nothing is returned.
   */
  method UpdateProfilePhoto(db: Database, caller: UserId, photoUrl: JsString, urlIsValid: bool) returns (r: Outcome)
    requires db.Valid()
    modifies db
    ensures db.Valid()
    ensures r.Fail? <==> !urlIsValid
    ensures r.Fail? ==> r.error == InvalidInput && db.users == old(db.users)
    ensures r.Pass? ==> db.users == UpdateWhere(old(db.users), UserHasId(caller), SetImage(photoUrl))
    ensures OnlyCallerRow(old(db.users), db.users, caller)
    ensures OnboardingKept(old(db.users), db.users)
    ensures r.Pass? ==> forall i :: 0 <= i < |db.users| ==>
      db.users[i] == if old(db.users)[i].id == caller then old(db.users)[i].(image := Some(photoUrl)) else old(db.users)[i]
    ensures db.posts == old(db.posts) && db.friendRequests == old(db.friendRequests)
    ensures db.friendships == old(db.friendships) && db.nextPostId == old(db.nextPostId)
    ensures db.nextRequestId == old(db.nextRequestId) && db.nextFriendshipId == old(db.nextFriendshipId)
    ensures db.clock == old(db.clock)
  {
    if !urlIsValid {
      return Fail(InvalidInput);
    }
    UpdateCallerRow(db.users, caller, SetImage(photoUrl));
    UpdateKeepsOnboarding(db.users, caller, SetImage(photoUrl));
    db.users := UpdateWhere(db.users, UserHasId(caller), SetImage(photoUrl));
    r := Pass;
  }
}

=== FILE: wrappers.dfy ===
/** The optional value a query returns when a row may be missing (`?? null` in the routers). */
module Wrappers {
  datatype Option<+T> = None | Some(value: T)
}
